=== FILE: README.md ===
# Lazy data list: URL resolution, HTTP client and paginated users loader

A Dafny model of the core of a small Vue 3 application that pages through the
Random User API. Five pieces are modelled:

- **URL helpers** (`Utilities`): `isAbsoluteURL` (an optional scheme in the
  sense of section 3.1 of RFC 3986 and its colon, then `//`, that is
  `<scheme>://` or a network-path reference as in section 4.2 of RFC 3986), `combineURLs` and `getUrlPath`,
  as functions over strings. Each comes with a reference definition and a
  lemma that connects the two.
- **List storage** (`DataList`): items, loading flag, page counter and last
  server page info as an immutable record, with `addItems` and `setItems`.
- **Paginated users loader** (`UsersList`): `useUsersList` and `fetchUsers`.
  The asynchronous call is split into `StartFetch` (guard, flag, `page++`,
  params) and `Settle` (append and record info on success, clear the flag on
  both outcomes). Runs are arbitrary sequences of fetch calls and
  settlements.
- **Fetch client** (`FetchClient`): header merging and stringification, the
  body rule, content-type classification, `getResponseError`, error
  normalisation and the notification of error observers, all composed into
  `MakeRequest`. The module-level state (base URL, default headers, observer
  list) becomes an explicit `Client` record.
- **User service** (`UsersApi`): shaping of the `inc` parameter, the fixed GET
  request to `https://randomuser.me/api`, and resolving with the response
  data.

Supporting modules are `Wrappers` (Option/Result), `Text` (`includes` and
`String(n)` with its inverse) and `JsValue` (JavaScript values, truthiness, and
reading `.message`).

Browser primitives are inputs, not code. `FetchClient.Network` supplies three
things: whether `new URL(...)` accepts the resolved URL, what `fetch` did (a
transport failure, or a `RawResponse` with the outcome of each body reader),
and the engine's TypeError message. Observers are opaque identities. Their
calls are returned as a trace of `(observer, error)` pairs. The observer list
is read when the request settles, so `MakeRequest` also takes the observers
registered while the request was pending.

The model follows the code, including these three behaviours:
- `addItems` appends the new items to the end of the existing list in place
  (`push`).
- If `new URL(...)` throws inside `getUrl`, the promise rejects with that raw
  error. The throw happens before `.catch` is attached, so no observer is
  called and the caller does not get a `ClientError`.
  (`FetchClient.Rejection.Escaped`)
- A non-ok response whose body parses to `null` makes `getResponseError`
  throw a TypeError. That TypeError is then wrapped into a `ClientError`
  without a response.

## Model

| member | source | states |
|---|---|---|
| `Utilities.IsAbsoluteURLMatchesPattern` | src/lib/utilities.ts:7-12 | the recogniser accepts exactly the strings matching `^([a-z][a-z\d+\-.]*:)?\/\/` case-insensitively (both directions) |
| `Utilities.DoubleSlashIsAbsolute` | src/lib/utilities.ts:11 | every string starting with `//` is absolute |
| `Utilities.SchemeURLIsAbsolute` | src/lib/utilities.ts:9-11 | any scheme name (letter, then letters, digits, `+`, `-`, `.`) followed by `://` is absolute |
| `Utilities.HttpsURLExample` | src/lib/utilities.ts:11 | `https://randomuser.me/api` is absolute |
| `Utilities.SchemeURLExamples` | src/lib/utilities.ts:11 | upper-case schemes and schemes with `+` are absolute |
| `Utilities.RelativeURLExamples` | src/lib/utilities.ts:11 | `users`, `/users`, `1a://x`, `http:/x` and the empty string are not absolute |
| `Utilities.SchemeRunAt` | src/lib/utilities.ts:11 | the scheme-character scan stops exactly at the first non-scheme character |
| `Utilities.StripTrailingSlashes` | src/lib/utilities.ts:22 | the result is a prefix of the input, does not end in `/`, and only slashes were removed |
| `Utilities.StripLeadingSlashes` | src/lib/utilities.ts:22 | the result is a suffix of the input, does not start with `/`, and only slashes were removed |
| `Utilities.CombineURLs` | src/lib/utilities.ts:21-23 | an empty relative part returns the base; otherwise the base cut before its trailing slashes, one `/`, and the relative part after its leading slashes |
| `Utilities.SeamUnique` | src/lib/utilities.ts:22 | the cut points of base and relative part are unique |
| `Utilities.CombineURLsAtSeam` | src/lib/utilities.ts:22 | at any valid cut the result is base prefix + `/` + relative suffix, with exactly one slash at the joint |
| `Utilities.GetUrlPath` | src/lib/utilities.ts:34-39 | absolute paths, and an absent or empty base, leave the path unchanged; a non-empty base with a relative path gives `combineURLs(base, path)` |
| `Utilities.GetUrlPathDefaultsToBase` | src/lib/utilities.ts:34-36 | with the default empty path and a non-empty base the result is the base |
| `Utilities.GetUrlPathJoinsRelative` | src/lib/utilities.ts:34-36 | a relative path under a non-empty base resolves to base and path joined by exactly one slash |
| `Utilities.GetUrlPathRelativeExample` | src/lib/utilities.ts:34-36 | `users` under `https://api.example.com/v1` resolves to `https://api.example.com/v1/users` |
| `Utilities.GetUrlPathRootedExample` | src/lib/utilities.ts:34-36 | for every base ending in `/`, `/users` resolves to the base without its trailing slashes, then `/users`: one slash at the joint |
| `Utilities.GetUrlPathNetworkPathExample` | src/lib/utilities.ts:34-38 | `//cdn.example.com/img.png` is returned unchanged whatever the base |
| `Text.IncludesFrom` | src/services/http/fetch-client.ts:121 | the scan from index `i` finds `sub` iff it occurs at some position at or after `i` |
| `Text.Includes` | src/services/http/fetch-client.ts:121-123 | `includes` is true iff the substring occurs at some position |
| `Text.NatToString` | src/services/http/fetch-client.ts:67 | a natural number prints as a non-empty string of decimal digits with no leading zero |
| `Text.IntToString` | src/services/http/fetch-client.ts:67 | an integer prints as an optionally signed decimal, signed exactly when negative, with no leading zero and never `-0` |
| `Text.NatToStringRoundTrip` | src/services/http/fetch-client.ts:67 | reading back the printed digits of a natural number gives the number |
| `Text.IntToStringRoundTrip` | src/services/http/fetch-client.ts:67 | reading back the printed decimal of an integer gives the integer |
| `JsValue.ReadMessage` | src/services/http/fetch-client.ts:141 | reading `.message` throws exactly on `undefined` and `null`; an object yields its own `message` field (or `undefined` without one); every other value yields `undefined` |
| `DataList.UseDataListStorage` | src/composables/data-list.ts:21-32 | initially no items, not loading, page counter `{page: 0, results: 10}`, and the reported info equal to it |
| `DataList.AddItems` | src/composables/data-list.ts:34-36 | old items stay in front in order, the new ones follow in order, the length adds up, nothing else changes |
| `DataList.SetItems` | src/composables/data-list.ts:38-40 | items become exactly the data; loading, page and info are unchanged |
| `DataList.AddItemsKeepsPrefix` | src/composables/data-list.ts:34-36 | the old items are a prefix and the appended tail is exactly the data |
| `DataList.AddItemsEmpty` | src/composables/data-list.ts:34-36 | appending nothing leaves the storage unchanged |
| `DataList.AddItemsTwice` | src/composables/data-list.ts:34-36 | two appends equal one append of the concatenation |
| `DataList.AddItemsIsSetOfConcatenation` | src/composables/data-list.ts:34-40 | appending equals setting the items to old items followed by the data |
| `DataList.AddItemsExample` | src/composables/data-list.ts:34-36 | `[a, b]` then `[c]` on fresh storage gives `[a, b, c]` |
| `UsersList.UseUsersList` | src/composables/users-list.ts:17-23 | starts valid, idle and empty; a truthy `perPage` sets the page size, an absent or zero one keeps 10 |
| `UsersList.StartFetch` | src/composables/users-list.ts:31-40 | while loading: no change, no request; otherwise loading set, page counter +1, and the caller's params sent with `page`/`results` overwritten by the counter |
| `UsersList.Settle` | src/composables/users-list.ts:41-47 | on success items grow by the results and info is recorded; on failure items and info stay; the flag is cleared either way and the counter is untouched |
| `UsersList.StepKeepsValid` | src/composables/users-list.ts:32-47 | every step keeps at most one request in flight and the flag true exactly when one is; a request is issued only when none is in flight |
| `UsersList.RunInvariants` | src/composables/users-list.ts:31-48 | over any run: valid throughout, page size fixed, counter = start + number of requests (never decreasing), requests ask for consecutive pages, items only grow at the end |
| `UsersList.FetchWhileLoadingIsNoOp` | src/composables/users-list.ts:32 | a fetch while loading issues nothing and changes nothing |
| `UsersList.FetchSettleFetch` | src/composables/users-list.ts:31-47 | fetch, succeed, fetch: two requests for the next two pages, with the first page's users appended |
| `UsersList.StartedRequestQuery` | src/composables/users-list.ts:36-40 | the query parameters of a started fetch carry the new page number and the page size |
| `FetchClient.SetBaseUrl` | src/services/http/fetch-client.ts:173-175 | only the base URL changes |
| `FetchClient.SetHeader` | src/services/http/fetch-client.ts:176-178 | exactly one default header is added or overwritten; all others and the rest of the state are kept |
| `FetchClient.OnError` | src/services/http/fetch-client.ts:182-184 | one observer is appended after the existing ones, which are kept in order |
| `FetchClient.HeaderToString` | src/services/http/fetch-client.ts:67 | strings are kept, booleans print as `true`/`false`, numbers print as the canonical decimal (no leading zero, no `-0`) that reads back as the number |
| `FetchClient.MergeHeaders` | src/services/http/fetch-client.ts:81 | the keys of both maps, the per-call value winning on a shared key |
| `FetchClient.CreateFetchHeaders` | src/services/http/fetch-client.ts:65-70 | same keys, every value converted to its string |
| `FetchClient.EffectiveHeadersPrecedence` | src/services/http/fetch-client.ts:65-81 | a header is sent iff it is a default or per-call header; a per-call value wins; a default is sent when not overridden |
| `FetchClient.NewClientDefaultHeaders` | src/services/http/fetch-client.ts:38-40 | a fresh client sends exactly `responseType: application/json; charset=UTF-8` for a call without headers |
| `FetchClient.CreateBody` | src/services/http/fetch-client.ts:84-86 | a falsy body is omitted, a form passes through unchanged, any other body is JSON-serialised |
| `FetchClient.CreateRequestInit` | src/services/http/fetch-client.ts:78-88 | method from the config; a header is sent iff it is a default or per-call header, the per-call value winning and a default kept when not overridden, each as its string; a falsy body is omitted, a form passes through, anything else is JSON |
| `FetchClient.ClassifyContentType` | src/services/http/fetch-client.ts:119-127 | JSON iff the type contains `application/json`; binary iff not JSON and it contains `application/octet-stream`; text otherwise, a missing header included |
| `FetchClient.ClassifyExamples` | src/services/http/fetch-client.ts:119-127 | `application/json; charset=utf-8` is JSON; a missing content type is text |
| `FetchClient.GetResponse` | src/services/http/fetch-client.ts:111-130 | status and headers copied, data from the reader the content type selects, config from the request; a failing reader rejects |
| `FetchClient.GetResponseError` | src/services/http/fetch-client.ts:138-143 | throws iff the data is null/undefined; otherwise carries the response and its config, uses a truthy `data.message`, else `[HttpClient] Error: server response status: <status>`; the message is never falsy |
| `FetchClient.Normalise` | src/services/http/fetch-client.ts:163-166 | a `ClientError` is kept; any other error becomes one with the request config, its message and no response |
| `FetchClient.Notify` | src/services/http/fetch-client.ts:167 | each observer is called exactly once, in registration order, with the same error |
| `FetchClient.SettleFetch` | src/services/http/fetch-client.ts:154-162 | success only for an ok response to this config; a thrown `ClientError` only for a non-ok response and carries it |
| `FetchClient.MakeRequest` | src/services/http/fetch-client.ts:152-170 | what is sent (resolved URL, params, init); success carries an ok response and notifies nobody; a normalised rejection notifies every observer, including those registered while the request was pending, once in registration order with the rejected error; an unbuildable URL escapes unnotified and unsent |
| `FetchClient.TransportFailureRejects` | src/services/http/fetch-client.ts:163-168 | a transport failure rejects with a `ClientError` holding the config and message and no response |
| `FetchClient.OkResponseResolves` | src/services/http/fetch-client.ts:154-161 | an ok response with a readable body resolves with the normalised response |
| `FetchClient.NonOkResponseRejects` | src/services/http/fetch-client.ts:156-158 | a non-ok response with defined data rejects with the error built from that response |
| `FetchClient.NonOkNullBodyRejectsWithoutResponse` | src/services/http/fetch-client.ts:141 | a non-ok JSON `null` body rejects with a wrapped TypeError and no response |
| `UsersApi.SplitJoinRoundTrip` | src/services/api/users.ts:14 | joining a non-empty list of comma-free names with `", "` and splitting gives the names back |
| `UsersApi.SplitIncludesCons` | src/services/api/users.ts:14 | splitting a comma-free name, `", "`, and more text gives the name and the pieces of the text |
| `UsersApi.FirstCommaAfter` | src/services/api/users.ts:14 | after a comma-free prefix, the first comma is the one that ends it |
| `UsersApi.UserIncludeCommaFree` | src/services/api/api-types.d.ts:67-79 | no `UserInclude` field name contains a comma |
| `UsersApi.UserIncludesRoundTrip` | src/services/api/users.ts:13-15 | every non-empty list of `UserInclude` names survives the join |
| `UsersApi.ShapeParams` | src/services/api/users.ts:13-15 | an array `inc` becomes its names joined by `", "`, an empty array giving `""`; a non-empty array of comma-free names can be read back from the join; a text or absent `inc`, and `page`/`results`, are kept; afterwards `inc` is never an array |
| `UsersApi.ShapeParamsIdempotent` | src/services/api/users.ts:13-15 | shaping twice equals shaping once |
| `UsersApi.ParamsToQuery` | src/services/api/users.ts:19 | one query entry per present field, holding its value; an `inc` list is held as an array of its names, a text `inc` as that text |
| `UsersApi.GetUsersConfig` | src/services/api/users.ts:16-20 | a GET to the fixed absolute endpoint with the shaped params, no headers, no body |
| `UsersApi.GetUsersIgnoresBaseUrl` | src/services/api/users.ts:17 | whatever the base URL, the request goes to `https://randomuser.me/api` |
| `UsersApi.GetUsers` | src/services/api/users.ts:12-22 | resolves with the response's `data` when the request resolves, rejects as it rejects; anything sent is a GET to the endpoint with the shaped params and no body |

## Left out

- Reactivity and promises: Vue `ref`s become record fields, and promise scheduling becomes the explicit `StartFetch`/`Settle` transitions and event runs. No concurrency model is needed under the single-threaded event loop.
- Aliasing: `setItems(data)` shares the caller's array, so a later `addItems` would mutate it. The model has value semantics.
- UsersApi.ShapeParams: `getUsers` writes the joined `inc` back into the params object it was given (src/services/api/users.ts:14), so a caller's own object changes. The model returns a new record instead. The loader is unaffected, because it always passes a freshly spread object.
- JavaScript numbers are unbounded integers here. NaN, `-0`, fractions and the exponent notation `String` uses from 1e21 upwards are not modelled.
- `new URL(...)`, `URLSearchParams` encoding, `fetch`, `JSON.stringify` and the body readers `json()`/`blob()`/`text()` are foreign. Their results are inputs (`Network`, `RawResponse`). `JSON.stringify` is assumed not to throw.
- Observers are assumed not to throw. A throwing observer would stop the `forEach` and replace the rejection reason.
- The success payload of the loader is the typed `UsersListResponse`. A response whose data lacks `results` (which would make `push(...undefined)` throw) is not modelled.
- Only the five `HttpRequestConfig` fields are modelled. Extra keys in the params object beyond `results`, `page` and `inc` are outside the declared type and are left out.
- `response.headers.get` is a lookup of the lower-cased `content-type` key. Merging of repeated headers is not modelled.
- `src/composables/intersection-observer.ts` (DOM observer glue) and `src/store/lists.ts` (a third-party store with local-storage persistence) are not part of this model. Neither is the singleton wiring in `src/services/http/index.ts` and `src/services/api/index.ts`.

=== FILE: data_list.dfy ===
/** The reactive list storage: the items, a loading flag, the client-side
    page counter and the last pagination info reported by the server. The
    reactive references become fields of an immutable record, and each
    update returns the next record. */
module DataList {

  /** `{ page, results }`: a page number and a page size. */
  datatype ResponseInfo = ResponseInfo(page: int, results: int)

  /** Both the counter and the reported info start at page 0 of size 10. */
  const DefaultPage: ResponseInfo := ResponseInfo(0, 10)

  datatype Storage<T> = Storage(items: seq<T>, loading: bool, page: ResponseInfo, responseInfo: ResponseInfo)

  /** `useDataListStorage()`: nothing loaded, not loading, default paging. */
  function UseDataListStorage<T>(): (s: Storage<T>)
    ensures |s.items| == 0 && !s.loading
    ensures s.page.page == 0 && s.page.results == 10
    ensures s.responseInfo == s.page
  {
    Storage([], false, DefaultPage, DefaultPage)
  }

  /** `addItems(data)`: the old items stay in front in their order, the new
      ones follow in theirs, and nothing but the items changes. */
  function AddItems<T>(s: Storage<T>, data: seq<T>): (r: Storage<T>)
    ensures |r.items| == |s.items| + |data|
    ensures forall i :: 0 <= i < |s.items| ==> r.items[i] == s.items[i]
    ensures forall j :: 0 <= j < |data| ==> r.items[|s.items| + j] == data[j]
    ensures r.loading == s.loading && r.page == s.page && r.responseInfo == s.responseInfo
  {
    s.(items := s.items + data)
  }

  /** `setItems(data)`: the items become exactly `data`; nothing else changes. */
  function SetItems<T>(s: Storage<T>, data: seq<T>): (r: Storage<T>)
    ensures r.items == data
    ensures r.loading == s.loading && r.page == s.page && r.responseInfo == s.responseInfo
  {
    s.(items := data)
  }

  /** The old items are a prefix of the items after an append. */
  lemma AddItemsKeepsPrefix<T>(s: Storage<T>, data: seq<T>)
    ensures s.items <= AddItems(s, data).items
    ensures AddItems(s, data).items[|s.items|..] == data
  {
    var r := AddItems(s, data);
    assert r.items[..|s.items|] == s.items;
    assert r.items[|s.items|..] == data;
  }

  /** Appending nothing leaves the storage as it was. */
  lemma AddItemsEmpty<T>(s: Storage<T>)
    ensures AddItems(s, []) == s
  {
    assert s.items + [] == s.items;
  }

  /** Two appends are one append of the concatenation. */
  lemma AddItemsTwice<T>(s: Storage<T>, d1: seq<T>, d2: seq<T>)
    ensures AddItems(AddItems(s, d1), d2) == AddItems(s, d1 + d2)
  {
    assert s.items + d1 + d2 == s.items + (d1 + d2);
  }

  /** Appending gives the same storage as replacing the items with the old
      items followed by the new ones. */
  lemma AddItemsIsSetOfConcatenation<T>(s: Storage<T>, data: seq<T>)
    ensures AddItems(s, data) == SetItems(s, s.items + data)
  {
  }

  /** Worked example: `[a, b]` then `[c]` gives `[a, b, c]`. */
  lemma AddItemsExample<T>(a: T, b: T, c: T)
    ensures AddItems(AddItems(UseDataListStorage<T>(), [a, b]), [c]).items == [a, b, c]
  {
  }
}

=== FILE: fetch_client.dfy ===
/** The fetch-based HTTP client: shared base URL, shared default headers and
    error observers, request building, response normalisation by content
    type, and error normalisation. The process-wide state becomes an explicit
    `Client` record, and the browser's `fetch`, `new URL(...)` and body
    parsers become inputs (`Network`, `RawResponse`). */
module FetchClient {
  import opened Wrappers
  import opened Text
  import opened JsValue
  import Utilities

  datatype Method = GET | OPTIONS | POST | PUT | DELETE | PATCH

  /** A request header value: `string | number | boolean`. */
  datatype HeaderValue = HeaderText(text: string) | HeaderNumber(number: int) | HeaderFlag(flag: bool)

  type RequestHeaders = map<string, HeaderValue>

  /** `HttpRequestConfig`; `verb` is its `method`, and an absent `body` is `Undefined`. */
  datatype RequestConfig = RequestConfig(
    verb: Method,
    url: string,
    headers: Option<RequestHeaders>,
    params: Option<map<string, Value>>,
    body: Value)

  /** The body put into the `RequestInit`: none, a form passed through, or
      the JSON serialisation of a value (the serialiser itself is foreign). */
  datatype RequestBody = NoBody | FormBody(form: Value) | JsonBody(payload: Value)

  datatype RequestInit = RequestInit(verb: Method, headers: map<string, string>, body: RequestBody)

  /** The arguments of the `fetch` call: the URL text before `new URL`
      parses it, the query parameters set on it, and the init. */
  datatype FetchRequest = FetchRequest(url: string, query: map<string, Value>, init: RequestInit)

  datatype HttpResponse = HttpResponse(status: int, headers: map<string, string>, data: Value, config: RequestConfig)

  /** `ClientError` (named `HttpClientError`): optional request config,
      message, optional response. */
  datatype ClientError = ClientError(config: Option<RequestConfig>, message: Value, response: Option<HttpResponse>)

  /** The module-level state: base URL, default headers, error observers in
      registration order. Observers are opaque identities of type `H`. */
  datatype Client<H> = Client(baseUrl: string, globalHeaders: RequestHeaders, handlers: seq<H>)

  const ResponseTypeHeader: string := "responseType"
  const DefaultResponseType: string := "application/json; charset=UTF-8"

  /** The state at load time: no base URL, one default header, no observers. */
  function NewClient<H>(): Client<H>
  {
    Client("", map[ResponseTypeHeader := HeaderText(DefaultResponseType)], [])
  }

  /** `setBaseUrl(url)`: only the base URL changes. */
  function SetBaseUrl<H>(c: Client<H>, url: string): (r: Client<H>)
    ensures r.baseUrl == url
    ensures r.globalHeaders == c.globalHeaders && r.handlers == c.handlers
  {
    c.(baseUrl := url)
  }

  /** `setHeader(name, value)`: adds or overwrites exactly one default header. */
  function SetHeader<H>(c: Client<H>, name: string, value: string): (r: Client<H>)
    ensures r.globalHeaders.Keys == c.globalHeaders.Keys + {name}
    ensures r.globalHeaders[name] == HeaderText(value)
    ensures forall k :: k in c.globalHeaders && k != name ==> r.globalHeaders[k] == c.globalHeaders[k]
    ensures r.baseUrl == c.baseUrl && r.handlers == c.handlers
  {
    c.(globalHeaders := c.globalHeaders[name := HeaderText(value)])
  }

  /** `onError(callback)`: appends one observer after the existing ones. */
  function OnError<H>(c: Client<H>, handler: H): (r: Client<H>)
    ensures |r.handlers| == |c.handlers| + 1
    ensures r.handlers[..|c.handlers|] == c.handlers && r.handlers[|c.handlers|] == handler
    ensures r.baseUrl == c.baseUrl && r.globalHeaders == c.globalHeaders
  {
    c.(handlers := c.handlers + [handler])
  }

  /** `String(value)` for a header value; a number prints as decimal text
      that reads back as the same number. */
  function HeaderToString(v: HeaderValue): (s: string)
    ensures v.HeaderText? ==> s == v.text
    ensures v.HeaderFlag? ==> s == (if v.flag then "true" else "false")
    ensures v.HeaderNumber? ==> IsCanonicalDecimal(s) && ParseInt(s) == v.number
  {
    match v
    case HeaderText(t) => t
    case HeaderFlag(b) => if b then "true" else "false"
    case HeaderNumber(n) =>
      IntToStringRoundTrip(n);
      IntToString(n)
  }

  /** `Object.assign({}, globalHeaders, headers)`: every key of either map,
      the per-call value winning on a shared key. */
  function MergeHeaders(global: RequestHeaders, perCall: Option<RequestHeaders>): (r: RequestHeaders)
    ensures r.Keys == global.Keys + perCall.GetOr(map[]).Keys
    ensures forall k :: k in perCall.GetOr(map[]) ==> r[k] == perCall.GetOr(map[])[k]
    ensures forall k :: k in global && k !in perCall.GetOr(map[]) ==> r[k] == global[k]
  {
    global + perCall.GetOr(map[])
  }

  /** `createFetchHeaders`: the same keys, every value as a string. */
  function CreateFetchHeaders(h: RequestHeaders): (r: map<string, string>)
    ensures r.Keys == h.Keys
    ensures forall k :: k in h ==> r[k] == HeaderToString(h[k])
  {
    map k | k in h :: HeaderToString(h[k])
  }

  /** The header set a request is sent with. */
  function EffectiveHeaders<H>(c: Client<H>, config: RequestConfig): map<string, string>
  {
    CreateFetchHeaders(MergeHeaders(c.globalHeaders, config.headers))
  }

  /** A per-call header always reaches the wire; a default header reaches it
      unless the call overrides it; nothing else is sent. */
  lemma EffectiveHeadersPrecedence<H>(c: Client<H>, config: RequestConfig, k: string)
    ensures var h := EffectiveHeaders(c, config);
      && (k in h <==> k in c.globalHeaders || (config.headers.Some? && k in config.headers.value))
      && (config.headers.Some? && k in config.headers.value ==> h[k] == HeaderToString(config.headers.value[k]))
      && (k in c.globalHeaders && (config.headers.None? || k !in config.headers.value) ==> h[k] == HeaderToString(c.globalHeaders[k]))
  {
  }

  /** On a fresh client a call without headers sends just the default
      response-type header. */
  lemma NewClientDefaultHeaders<H>(config: RequestConfig)
    requires config.headers.None?
    ensures EffectiveHeaders(NewClient<H>(), config) == map["responseType" := "application/json; charset=UTF-8"]
  {
  }

  /** The body rule of `createRequestInit`: a falsy body is left out, a form
      passes through unchanged, any other body is serialised as JSON. */
  function CreateBody(body: Value): (r: RequestBody)
    ensures r.NoBody? <==> !Truthy(body)
    ensures r.FormBody? <==> body.FormData?
    ensures r.FormBody? ==> r.form == body
    ensures r.JsonBody? ==> r.payload == body
  {
    if !Truthy(body) then NoBody
    else if body.FormData? then FormBody(body)
    else JsonBody(body)
  }

  /** `createRequestInit(config)`. */
  function CreateRequestInit<H>(c: Client<H>, config: RequestConfig): (r: RequestInit)
    ensures r.verb == config.verb
    ensures forall k :: k in r.headers <==> k in c.globalHeaders || (config.headers.Some? && k in config.headers.value)
    ensures forall k :: config.headers.Some? && k in config.headers.value ==>
      r.headers[k] == HeaderToString(config.headers.value[k])
    ensures forall k :: k in c.globalHeaders && (config.headers.None? || k !in config.headers.value) ==>
      r.headers[k] == HeaderToString(c.globalHeaders[k])
    ensures r.body.NoBody? <==> !Truthy(config.body)
    ensures r.body.FormBody? <==> config.body.FormData?
    ensures r.body.FormBody? ==> r.body.form == config.body
    ensures r.body.JsonBody? ==> r.body.payload == config.body
  {
    RequestInit(config.verb, EffectiveHeaders(c, config), CreateBody(config.body))
  }

  /** The three ways a response body is parsed. */
  datatype ContentKind = JsonContent | BinaryContent | TextContent

  const JsonMime: string := "application/json"
  const OctetMime: string := "application/octet-stream"

  /** The content type is present and contains `mime`. */
  ghost predicate Mentions(contentType: Option<string>, mime: string)
  {
    contentType.Some? && exists j: nat :: OccursAt(contentType.value, mime, j)
  }

  /** The content-type branch of `getResponse`: JSON is checked first, then
      binary; anything else, a missing header included, is text. */
  function ClassifyContentType(contentType: Option<string>): (k: ContentKind)
    ensures k == JsonContent <==> Mentions(contentType, JsonMime)
    ensures k == BinaryContent <==> !Mentions(contentType, JsonMime) && Mentions(contentType, OctetMime)
    ensures k == TextContent <==> !Mentions(contentType, JsonMime) && !Mentions(contentType, OctetMime)
  {
    if contentType.Some? && contentType.value != "" && Includes(contentType.value, JsonMime) then JsonContent
    else if contentType.Some? && contentType.value != "" && Includes(contentType.value, OctetMime) then BinaryContent
    else TextContent
  }

  /** A JSON type with a charset parameter is JSON; a missing header is text. */
  lemma ClassifyExamples()
    ensures ClassifyContentType(Some("application/json; charset=utf-8")) == JsonContent
    ensures ClassifyContentType(None) == TextContent
  {
    assert OccursAt("application/json; charset=utf-8", JsonMime, 0);
  }

  /** `response.headers.get('content-type')`; header names arrive lower-cased. */
  function ContentType(headers: map<string, string>): Option<string>
  {
    if "content-type" in headers then Some(headers["content-type"]) else None
  }

  /** A response as `fetch` delivers it, with the outcome of each body reader
      (`json()`, `blob()`, `text()`); a reader's failure carries the message
      of the error it rejects with. */
  datatype RawResponse = RawResponse(
    status: int,
    headers: map<string, string>,
    json: Result<Value, string>,
    blob: Result<nat, string>,
    text: Result<string, string>)

  /** `response.ok`. */
  predicate Ok(status: int)
  {
    200 <= status <= 299
  }

  /** The body reader `getResponse` awaits for a given kind. */
  function ReadBody(raw: RawResponse, kind: ContentKind): Result<Value, string>
  {
    match kind
    case JsonContent => raw.json
    case BinaryContent => (match raw.blob case Success(b) => Success(Blob(b)) case Failure(m) => Failure(m))
    case TextContent => (match raw.text case Success(t) => Success(Str(t)) case Failure(m) => Failure(m))
  }

  /** `getResponse`: status and headers are copied, the data is what the
      reader chosen by the content type produced, and the config is the
      request's; a failing reader rejects with its message. */
  function GetResponse(raw: RawResponse, config: RequestConfig): (r: Result<HttpResponse, string>)
    ensures var kind := ClassifyContentType(ContentType(raw.headers));
      && (r.Success? <==> ReadBody(raw, kind).Success?)
      && (r.Success? ==> r.value == HttpResponse(raw.status, raw.headers, ReadBody(raw, kind).value, config))
      && (kind == JsonContent && raw.json.Success? ==> r.Success? && r.value.data == raw.json.value)
      && (kind == BinaryContent && raw.blob.Success? ==> r.Success? && r.value.data == Blob(raw.blob.value))
      && (kind == TextContent && raw.text.Success? ==> r.Success? && r.value.data == Str(raw.text.value))
  {
    match ReadBody(raw, ClassifyContentType(ContentType(raw.headers)))
    case Success(data) => Success(HttpResponse(raw.status, raw.headers, data, config))
    case Failure(m) => Failure(m)
  }

  const StatusMessagePrefix: string := "[HttpClient] Error: server response status: "

  /** `${response?.status}`: the status in decimal, or `undefined`. */
  function StatusText(response: Option<HttpResponse>): string
  {
    if response.Some? then IntToString(response.value.status) else "undefined"
  }

  /** `getResponseError(response?)`. `None` stands for the TypeError thrown
      when the response's data is `null` or `undefined`, whose `message`
      cannot be read. Otherwise the error carries the response and its
      config, and its message is the data's truthy `message` or else the
      status message. */
  function GetResponseError(response: Option<HttpResponse>): (r: Option<ClientError>)
    ensures r.None? <==> response.Some? && (response.value.data.Undefined? || response.value.data.Null?)
    ensures r.Some? ==> r.value.response == response
    ensures r.Some? ==> r.value.config == (if response.Some? then Some(response.value.config) else None)
    ensures r.Some? ==> Truthy(r.value.message)
    ensures r.Some? && response.Some? && response.value.data.Object?
      && "message" in response.value.data.fields && Truthy(response.value.data.fields["message"])
      ==> r.value.message == response.value.data.fields["message"]
    ensures r.Some? && (response.None? || !response.value.data.Object? || "message" !in response.value.data.fields
      || !Truthy(response.value.data.fields["message"]))
      ==> r.value.message == Str(StatusMessagePrefix + StatusText(response))
  {
    var config := if response.Some? then Some(response.value.config) else None;
    var read := if response.Some? then ReadMessage(response.value.data) else Some(Undefined);
    if read.None? then None
    else
      var message := if Truthy(read.value) then read.value else Str(StatusMessagePrefix + StatusText(response));
      Some(ClientError(config, message, response))
  }

  /** What the `.then` callback of `makeRequest` ends with when it throws:
      a `ClientError`, or some other error with its message. */
  datatype Thrown = ThrownClientError(error: ClientError) | ThrownError(message: string)

  /** The `.catch` normalisation: a `ClientError` is kept as it is; any other
      error becomes a `ClientError` with the request config, that error's
      message and no response. (An empty message is not assigned, which
      leaves the inherited empty message, so the message is the same.) */
  function Normalise(thrown: Thrown, config: RequestConfig): (e: ClientError)
    ensures thrown.ThrownClientError? ==> e == thrown.error
    ensures thrown.ThrownError? ==> e.config == Some(config) && e.response.None? && e.message == Str(thrown.message)
  {
    match thrown
    case ThrownClientError(err) => err
    case ThrownError(m) => ClientError(Some(config), Str(m), None)
  }

  /** `onErrorHandlers.forEach(callback => callback(error))`, recorded as the
      trace of calls: each observer once, in registration order. */
  function Notify<H>(handlers: seq<H>, e: ClientError): (trace: seq<(H, ClientError)>)
    ensures |trace| == |handlers|
    ensures forall i :: 0 <= i < |handlers| ==> trace[i] == (handlers[i], e)
  {
    if handlers == [] then [] else [(handlers[0], e)] + Notify(handlers[1..], e)
  }

  /** What `fetch` did: failed without a response, or responded. */
  datatype FetchOutcome = TransportFailure(message: string) | Responded(raw: RawResponse)

  /** The browser's part of one request: whether `new URL(...)` rejects the
      resolved URL (with its message), what `fetch` did, and the engine's
      message for reading a property of `null` or `undefined`. */
  datatype Network = Network(urlError: Option<string>, outcome: FetchOutcome, typeErrorMessage: string)

  /** How a request's promise rejects: with a normalised `ClientError`, or,
      when the URL cannot be built, with the raw error, which escapes the
      normalisation because it is thrown before the `.catch` is attached. */
  datatype Rejection = Rejected(error: ClientError) | Escaped(message: string)

  datatype RequestResult<H> = RequestResult(
    sent: Option<FetchRequest>,
    outcome: Result<HttpResponse, Rejection>,
    notified: seq<(H, ClientError)>)

  /** The URL text `getUrl` hands to `new URL`. */
  function ResolveUrl<H>(c: Client<H>, config: RequestConfig): string
  {
    Utilities.GetUrlPath(Some(config.url), Some(c.baseUrl))
  }

  /** The `.then` callback of `makeRequest` applied to what `fetch` did. */
  function SettleFetch(config: RequestConfig, outcome: FetchOutcome, typeErrorMessage: string): (r: Result<HttpResponse, Thrown>)
    ensures r.Success? ==> outcome.Responded? && Ok(outcome.raw.status) && r.value.config == config
    ensures r.Failure? && r.error.ThrownClientError? ==>
      && outcome.Responded? && !Ok(outcome.raw.status)
      && r.error.error.response.Some? && r.error.error.response.value.status == outcome.raw.status
      && r.error.error.config == Some(config)
  {
    match outcome
    case TransportFailure(m) => Failure(ThrownError(m))
    case Responded(raw) =>
      match GetResponse(raw, config)
      case Failure(m) => Failure(ThrownError(m))
      case Success(response) =>
        if Ok(raw.status) then Success(response)
        else
          match GetResponseError(Some(response))
          case None => Failure(ThrownError(typeErrorMessage))
          case Some(e) => Failure(ThrownClientError(e))
  }

  /** `makeRequest(config)`. The URL and the init are built from the client
      as it is when the call is made; the observer list is read only when the
      promise settles, so `later` holds the observers `onError` appended
      while the request was pending. A resolved promise carries an ok
      response and notifies nobody; a normalised rejection notifies every
      observer, earlier and later ones alike, once, in registration order,
      with the very error the caller receives; only a URL that cannot be
      built escapes, before anything is sent. */
  function MakeRequest<H>(c: Client<H>, config: RequestConfig, net: Network, later: seq<H>): (r: RequestResult<H>)
    ensures r.outcome.Failure? && r.outcome.error.Escaped? <==> net.urlError.Some?
    ensures r.sent.None? <==> net.urlError.Some?
    ensures r.sent.Some? ==>
      && r.sent.value.url == ResolveUrl(c, config)
      && r.sent.value.query == config.params.GetOr(map[])
      && r.sent.value.init == CreateRequestInit(c, config)
    ensures r.outcome.Success? ==> Ok(r.outcome.value.status) && r.outcome.value.config == config && r.notified == []
    ensures r.outcome.Failure? && r.outcome.error.Rejected? ==>
      && |r.notified| == |c.handlers| + |later|
      && (forall i :: 0 <= i < |c.handlers| ==> r.notified[i] == (c.handlers[i], r.outcome.error.error))
      && (forall j :: 0 <= j < |later| ==> r.notified[|c.handlers| + j] == (later[j], r.outcome.error.error))
    ensures r.outcome.Failure? && r.outcome.error.Escaped? ==> r.notified == []
    ensures r.outcome.Failure? && r.outcome.error.Rejected? && r.outcome.error.error.response.Some? ==>
      !Ok(r.outcome.error.error.response.value.status) && r.outcome.error.error.response.value.config == config
  {
    if net.urlError.Some? then
      RequestResult(None, Failure(Escaped(net.urlError.value)), [])
    else
      var sent := FetchRequest(ResolveUrl(c, config), config.params.GetOr(map[]), CreateRequestInit(c, config));
      match SettleFetch(config, net.outcome, net.typeErrorMessage)
      case Success(response) => RequestResult(Some(sent), Success(response), [])
      case Failure(thrown) =>
        var e := Normalise(thrown, config);
        RequestResult(Some(sent), Failure(Rejected(e)), Notify(c.handlers + later, e))
  }

  /** A transport failure rejects with a `ClientError` holding the request
      config and the failure's message but no response. */
  lemma TransportFailureRejects<H>(c: Client<H>, config: RequestConfig, m: string, typeErrorMessage: string, later: seq<H>)
    ensures MakeRequest(c, config, Network(None, TransportFailure(m), typeErrorMessage), later).outcome
      == Failure(Rejected(ClientError(Some(config), Str(m), None)))
  {
  }

  /** An ok response whose body reader succeeds resolves with the normalised
      response. */
  lemma OkResponseResolves<H>(c: Client<H>, config: RequestConfig, raw: RawResponse, typeErrorMessage: string, later: seq<H>)
    requires Ok(raw.status)
    requires ReadBody(raw, ClassifyContentType(ContentType(raw.headers))).Success?
    ensures var data := ReadBody(raw, ClassifyContentType(ContentType(raw.headers))).value;
      MakeRequest(c, config, Network(None, Responded(raw), typeErrorMessage), later).outcome
      == Success(HttpResponse(raw.status, raw.headers, data, config))
  {
  }

  /** A non-ok response whose data is neither `null` nor `undefined` rejects
      with the `ClientError` built from the normalised response. */
  lemma NonOkResponseRejects<H>(c: Client<H>, config: RequestConfig, raw: RawResponse, typeErrorMessage: string, later: seq<H>)
    requires !Ok(raw.status)
    requires ReadBody(raw, ClassifyContentType(ContentType(raw.headers))).Success?
    requires var data := ReadBody(raw, ClassifyContentType(ContentType(raw.headers))).value;
      !data.Undefined? && !data.Null?
    ensures var response := HttpResponse(raw.status, raw.headers, ReadBody(raw, ClassifyContentType(ContentType(raw.headers))).value, config);
      && GetResponseError(Some(response)).Some?
      && MakeRequest(c, config, Network(None, Responded(raw), typeErrorMessage), later).outcome
         == Failure(Rejected(GetResponseError(Some(response)).value))
  {
  }

  /** A non-ok JSON response whose body is `null` rejects with the wrapped
      TypeError: no response attached, the engine's message. */
  lemma NonOkNullBodyRejectsWithoutResponse<H>(c: Client<H>, config: RequestConfig, raw: RawResponse, typeErrorMessage: string, later: seq<H>)
    requires !Ok(raw.status)
    requires ClassifyContentType(ContentType(raw.headers)) == JsonContent
    requires raw.json == Success(Null)
    ensures MakeRequest(c, config, Network(None, Responded(raw), typeErrorMessage), later).outcome
      == Failure(Rejected(ClientError(Some(config), Str(typeErrorMessage), None)))
  {
  }
}

=== FILE: js_value.dfy ===
/** The JavaScript values the core handles: request bodies, parsed response
    data, query parameters and error messages. Numbers are integral; blobs
    and form-data objects are opaque handles. */
module JsValue {
  import opened Wrappers

  datatype Value =
    | Undefined
    | Null
    | Bool(b: bool)
    | Number(n: int)
    | Str(s: string)
    | Array(elems: seq<Value>)
    | Object(fields: map<string, Value>)
    | Blob(blob: nat)
    | FormData(form: nat)

  /** JavaScript truthiness: `undefined`, `null`, `false`, `0` and `""` are falsy. */
  predicate Truthy(v: Value)
  {
    match v
    case Undefined => false
    case Null => false
    case Bool(b) => b
    case Number(n) => n != 0
    case Str(s) => s != ""
    case _ => true
  }

  /** Reading `v.message`: `None` when the read throws a TypeError (on
      `undefined` or `null`); an object yields its own `message` property;
      every other value has no such property and yields `undefined`. */
  function ReadMessage(v: Value): (r: Option<Value>)
    ensures r.None? <==> v.Undefined? || v.Null?
    ensures r.Some? && r.value != Undefined ==> v.Object? && "message" in v.fields
    ensures v.Object? && "message" in v.fields ==> r == Some(v.fields["message"])
    ensures !v.Object? && !v.Undefined? && !v.Null? ==> r == Some(Undefined)
  {
    match v
    case Undefined => None
    case Null => None
    case Object(fields) => Some(if "message" in fields then fields["message"] else Undefined)
    case _ => Some(Undefined)
  }
}

=== FILE: text.dfy ===
/** String helpers the source takes from the JavaScript runtime:
    `String.prototype.includes` and `String(n)` on integral numbers. */
module Text {

  /** `sub` occurs in `s` starting at index `i`. */
  predicate OccursAt(s: string, sub: string, i: nat)
  {
    i + |sub| <= |s| && s[i..i + |sub|] == sub
  }

  /** `s.includes(sub)` by a left-to-right scan from index `i`. */
  function IncludesFrom(s: string, sub: string, i: nat): (b: bool)
    requires i <= |s|
    ensures b <==> exists j: nat :: i <= j && OccursAt(s, sub, j)
    decreases |s| - i
  {
    if i + |sub| > |s| then false
    else if OccursAt(s, sub, i) then true
    else IncludesFrom(s, sub, i + 1)
  }

  /** `s.includes(sub)`: some position of `s` starts an occurrence of `sub`. */
  function Includes(s: string, sub: string): (b: bool)
    ensures b <==> exists j: nat :: OccursAt(s, sub, j)
  {
    IncludesFrom(s, sub, 0)
  }

  function DigitChar(d: nat): char
    requires d < 10
  {
    "0123456789"[d]
  }

  predicate IsDigit(c: char)
  {
    '0' <= c <= '9'
  }

  /** Decimal digits of `n`, most significant first, without leading zeros. */
  function NatToString(n: nat): (s: string)
    ensures |s| > 0
    ensures forall i :: 0 <= i < |s| ==> IsDigit(s[i])
    ensures |s| > 1 ==> s[0] != '0'
    ensures s[0] == '0' <==> n == 0
    decreases n
  {
    if n < 10 then [DigitChar(n)] else NatToString(n / 10) + [DigitChar(n % 10)]
  }

  /** An optional minus sign followed by at least one decimal digit. */
  predicate IsDecimal(s: string)
  {
    && |s| > 0
    && (s[0] == '-' ==> |s| > 1 && forall i :: 1 <= i < |s| ==> IsDigit(s[i]))
    && (s[0] != '-' ==> forall i :: 0 <= i < |s| ==> IsDigit(s[i]))
  }

  /** The form `String` gives an integer: no leading zero, and no `-0`. */
  predicate IsCanonicalDecimal(s: string)
  {
    && IsDecimal(s)
    && (s[0] == '-' ==> s[1] != '0')
    && (s[0] != '-' && |s| > 1 ==> s[0] != '0')
  }

  /** `String(n)` for an integral JavaScript number of magnitude below 1e21. */
  function IntToString(n: int): (s: string)
    ensures IsCanonicalDecimal(s)
    ensures s[0] == '-' <==> n < 0
  {
    if n < 0 then "-" + NatToString(-n) else NatToString(n)
  }

  /** Reads back a string of decimal digits; the partner of `NatToString`. */
  function ParseNat(s: string): nat
    requires forall i :: 0 <= i < |s| ==> IsDigit(s[i])
    decreases |s|
  {
    if |s| == 0 then 0
    else
      assert IsDigit(s[|s| - 1]);
      ParseNat(s[..|s| - 1]) * 10 + (s[|s| - 1] as int - '0' as int)
  }

  /** Reads back an optionally signed decimal; the partner of `IntToString`. */
  function ParseInt(s: string): int
    requires IsDecimal(s)
  {
    if s[0] == '-' then -(ParseNat(s[1..]) as int) else ParseNat(s)
  }

  lemma {:induction false} NatToStringRoundTrip(n: nat)
    ensures ParseNat(NatToString(n)) == n
    decreases n
  {
    var s := NatToString(n);
    if n >= 10 {
      NatToStringRoundTrip(n / 10);
      assert s[..|s| - 1] == NatToString(n / 10);
    }
  }

  /** The decimal text of an integer reads back as that integer, so two
      different header numbers never print the same. */
  lemma IntToStringRoundTrip(n: int)
    ensures ParseInt(IntToString(n)) == n
  {
    var s := IntToString(n);
    if n < 0 {
      NatToStringRoundTrip(-n);
      assert s[1..] == NatToString(-n);
    } else {
      NatToStringRoundTrip(n);
    }
  }
}

=== FILE: users_api.dfy ===
/** The user service: shapes the list request's parameters and issues a GET
    to the fixed Random User API endpoint through the HTTP client, resolving
    with the response's data. */
module UsersApi {
  import opened Wrappers
  import opened JsValue
  import opened FetchClient
  import DataList
  import Utilities

  /** `inc`: one field name or free text, or an array of field names. */
  datatype Include = IncludeText(text: string) | IncludeList(names: seq<string>)

  /** `UsersListRequestParams`; an absent field is `None`. */
  datatype UsersListRequestParams = UsersListRequestParams(results: Option<int>, page: Option<int>, inc: Option<Include>)

  /** `UsersListResponse`, with the user record kept opaque as `U`. */
  datatype UsersListResponse<U> = UsersListResponse(results: seq<U>, info: DataList.ResponseInfo)

  const UsersEndpoint: string := "https://randomuser.me/api"

  /** The field names of `UserInclude`. */
  predicate IsUserInclude(name: string)
  {
    name in {"gender", "name", "nat", "login", "location", "email", "registered", "dob", "phone", "cell", "id", "picture"}
  }

  /** `names.join(', ')`. */
  function JoinIncludes(names: seq<string>): string
  {
    if |names| == 0 then ""
    else if |names| == 1 then names[0]
    else names[0] + ", " + JoinIncludes(names[1..])
  }

  /** Index of the first comma of `s`. */
  function FirstComma(s: string): (i: nat)
    requires ',' in s
    ensures i < |s| && s[i] == ','
    ensures forall j :: 0 <= j < i ==> s[j] != ','
  {
    if s[0] == ',' then 0 else 1 + FirstComma(s[1..])
  }

  /** Reads a joined `inc` back into names: cut at each comma and drop the
      one space that follows it. The partner of `JoinIncludes`. */
  function SplitIncludes(s: string): seq<string>
    decreases |s|
  {
    if ',' !in s then [s]
    else
      var i := FirstComma(s);
      var rest := s[i + 1..];
      [s[..i]] + SplitIncludes(if |rest| > 0 && rest[0] == ' ' then rest[1..] else rest)
  }

  /** The first comma after a comma-free prefix is the one that ends it. */
  lemma FirstCommaAfter(x: string, t: string)
    requires ',' !in x
    requires |t| > 0 && t[0] == ','
    ensures ',' in x + t && FirstComma(x + t) == |x|
  {
    var s := x + t;
    assert s[|x|] == ',';
  }

  /** Joining comma-free names and splitting the result gives the names back:
      the joined `inc` loses nothing. */
  lemma {:induction false} SplitJoinRoundTrip(names: seq<string>)
    requires |names| > 0
    requires forall i :: 0 <= i < |names| ==> ',' !in names[i]
    ensures SplitIncludes(JoinIncludes(names)) == names
    decreases |names|
  {
    if |names| > 1 {
      SplitIncludesCons(names[0], JoinIncludes(names[1..]));
      SplitJoinRoundTrip(names[1..]);
      assert names == [names[0]] + names[1..];
    }
  }

  /** Splitting a comma-free name, comma, space and more text yields the
      name followed by the pieces of the text. */
  lemma SplitIncludesCons(x: string, tail: string)
    requires ',' !in x
    ensures SplitIncludes(x + ", " + tail) == [x] + SplitIncludes(tail)
  {
    var s := x + ", " + tail;
    FirstCommaAfter(x, ", " + tail);
    assert s == x + (", " + tail);
    assert s[..|x|] == x;
    assert s[|x| + 1..] == " " + tail;
    assert (" " + tail)[1..] == tail;
  }

  /** `SplitJoinRoundTrip` as an implication, for use inside expressions. */
  lemma JoinRecoverable(names: seq<string>)
    ensures |names| > 0 && (forall i :: 0 <= i < |names| ==> ',' !in names[i])
      ==> SplitIncludes(JoinIncludes(names)) == names
  {
    if |names| > 0 && forall i :: 0 <= i < |names| ==> ',' !in names[i] {
      SplitJoinRoundTrip(names);
    }
  }

  /** Every list of `UserInclude` names survives the join. */
  lemma UserIncludesRoundTrip(names: seq<string>)
    requires |names| > 0
    requires forall i :: 0 <= i < |names| ==> IsUserInclude(names[i])
    ensures SplitIncludes(JoinIncludes(names)) == names
  {
    forall i | 0 <= i < |names|
      ensures ',' !in names[i]
    {
      UserIncludeCommaFree(names[i]);
    }
    SplitJoinRoundTrip(names);
  }

  /** No `UserInclude` name contains a comma. */
  lemma UserIncludeCommaFree(name: string)
    requires IsUserInclude(name)
    ensures ',' !in name
  {
  }

  /** The parameter shaping of `getUsers`: an array `inc` becomes its names
      joined by comma and space, from which they can be read back; a text
      `inc` or an absent one is kept, and so are `page` and `results`. */
  function ShapeParams(p: UsersListRequestParams): (q: UsersListRequestParams)
    ensures q.results == p.results && q.page == p.page
    ensures q.inc.None? <==> p.inc.None?
    ensures q.inc.Some? ==> q.inc.value.IncludeText?
    ensures p.inc.Some? && p.inc.value.IncludeText? ==> q.inc == p.inc
    ensures p.inc.Some? && p.inc.value.IncludeList? ==> q.inc == Some(IncludeText(JoinIncludes(p.inc.value.names)))
    ensures p.inc == Some(IncludeList([])) ==> q.inc == Some(IncludeText(""))
    ensures p.inc.Some? && p.inc.value.IncludeList? && |p.inc.value.names| > 0
      && (forall i :: 0 <= i < |p.inc.value.names| ==> ',' !in p.inc.value.names[i])
      ==> SplitIncludes(q.inc.value.text) == p.inc.value.names
  {
    match p.inc
    case Some(IncludeList(names)) =>
      JoinRecoverable(names);
      p.(inc := Some(IncludeText(JoinIncludes(names))))
    case _ => p
  }

  /** Shaping twice is shaping once. */
  lemma ShapeParamsIdempotent(p: UsersListRequestParams)
    ensures ShapeParams(ShapeParams(p)) == ShapeParams(p)
  {
  }

  /** The params object as the query parameters: one entry per present field,
      holding its value; a list of include names is held as an array of strings. */
  function ParamsToQuery(p: UsersListRequestParams): (q: map<string, Value>)
    ensures "results" in q <==> p.results.Some?
    ensures "page" in q <==> p.page.Some?
    ensures "inc" in q <==> p.inc.Some?
    ensures p.results.Some? ==> q["results"] == Number(p.results.value)
    ensures p.page.Some? ==> q["page"] == Number(p.page.value)
    ensures p.inc.Some? && p.inc.value.IncludeText? ==> q["inc"] == Str(p.inc.value.text)
    ensures p.inc.Some? && p.inc.value.IncludeList? ==>
      q["inc"].Array? && |q["inc"].elems| == |p.inc.value.names|
      && forall i :: 0 <= i < |p.inc.value.names| ==> q["inc"].elems[i] == Str(p.inc.value.names[i])
    ensures q.Keys <= {"results", "page", "inc"}
  {
    var withResults := if p.results.Some? then map["results" := Number(p.results.value)] else map[];
    var withPage := if p.page.Some? then withResults["page" := Number(p.page.value)] else withResults;
    match p.inc
    case None => withPage
    case Some(IncludeText(text)) => withPage["inc" := Str(text)]
    case Some(IncludeList(names)) => withPage["inc" := Array(seq(|names|, i requires 0 <= i < |names| => Str(names[i])))]
  }

  /** The request `getUsers` issues: a GET to the fixed endpoint, which is
      absolute, with the shaped parameters, no headers and no body. */
  function GetUsersConfig(params: UsersListRequestParams): (config: RequestConfig)
    ensures config.verb == GET
    ensures config.url == UsersEndpoint && Utilities.IsAbsoluteURL(config.url)
    ensures config.params == Some(ParamsToQuery(ShapeParams(params)))
    ensures config.headers.None? && !Truthy(config.body)
  {
    Utilities.HttpsURLExample();
    RequestConfig(GET, UsersEndpoint, None, Some(ParamsToQuery(ShapeParams(params))), Undefined)
  }

  /** Whatever base URL the client holds, the users request goes to the
      fixed endpoint. */
  lemma GetUsersIgnoresBaseUrl<H>(c: Client<H>, params: UsersListRequestParams)
    ensures ResolveUrl(c, GetUsersConfig(params)) == UsersEndpoint
  {
    Utilities.IsAbsoluteURLMatchesPattern(UsersEndpoint);
  }

  /** One `getUsers` call: what was sent, how it settled, whom it notified. */
  datatype UsersCall<H> = UsersCall(sent: Option<FetchRequest>, outcome: Result<Value, Rejection>, notified: seq<(H, ClientError)>)

  /** `getUsers(params)`: issues the request through the client and resolves
      with the response's data, or rejects as the client did. Anything sent
      is a GET to the fixed endpoint carrying the shaped parameters. */
  function GetUsers<H>(c: Client<H>, params: UsersListRequestParams, net: Network, later: seq<H>): (r: UsersCall<H>)
    ensures var call := MakeRequest(c, GetUsersConfig(params), net, later);
      && r.sent == call.sent
      && r.notified == call.notified
      && (r.outcome.Success? <==> call.outcome.Success?)
      && (r.outcome.Success? ==> r.outcome.value == call.outcome.value.data && Ok(call.outcome.value.status))
      && (r.outcome.Failure? ==> r.outcome.error == call.outcome.error)
    ensures r.sent.Some? ==>
      && r.sent.value.url == UsersEndpoint
      && r.sent.value.init.verb == GET
      && r.sent.value.init.body.NoBody?
      && r.sent.value.query == ParamsToQuery(ShapeParams(params))
  {
    GetUsersIgnoresBaseUrl(c, params);
    var call := MakeRequest(c, GetUsersConfig(params), net, later);
    match call.outcome
    case Success(response) => UsersCall(call.sent, Success(response.data), call.notified)
    case Failure(e) => UsersCall(call.sent, Failure(e), call.notified)
  }
}

=== FILE: users_list.dfy ===
/** The paginated users loader: list storage plus a `fetchUsers` operation
    guarded by the loading flag. The asynchronous call is split into two
    transitions: `StartFetch` (the synchronous part, up to issuing the
    request) and `Settle` (the `.then` and `.finally` callbacks). `pending`
    counts requests issued and not yet settled; it stands for the promise
    chain and is not a field of the source. */
module UsersList {
  import opened Wrappers
  import opened DataList
  import opened UsersApi
  import opened JsValue

  datatype Loader<U> = Loader(store: Storage<U>, pending: nat)

  /** At most one request is in flight, and the loading flag says whether
      one is. */
  predicate Valid<U>(l: Loader<U>)
  {
    l.pending <= 1 && (l.store.loading <==> l.pending == 1)
  }

  /** Default page size when `perPage` is not given. */
  const DefaultPerPage: int := 10

  /** `useUsersList(perPage?)`: empty and idle; a truthy `perPage` sets the
      page size, an absent or zero one keeps the default. */
  function UseUsersList<U>(perPage: Option<int>): (l: Loader<U>)
    ensures Valid(l) && l.pending == 0
    ensures l.store.items == [] && l.store.page.page == 0 && l.store.responseInfo == DefaultPage
    ensures perPage.Some? && Truthy(Number(perPage.value)) ==> l.store.page.results == perPage.value
    ensures perPage.None? || perPage == Some(0) ==> l.store.page.results == DefaultPerPage
  {
    var s := UseDataListStorage<U>();
    if perPage.Some? && perPage.value != 0 then Loader(s.(page := s.page.(results := perPage.value)), 0)
    else Loader(s, 0)
  }

  /** The synchronous part of `fetchUsers(params = {})`. While loading it
      does nothing and issues nothing. Otherwise it sets the flag, advances
      the page counter by one, and issues the caller's params with `page`
      and `results` overwritten by the counter. */
  function StartFetch<U>(l: Loader<U>, params: UsersListRequestParams): (r: (Loader<U>, Option<UsersListRequestParams>))
    ensures l.store.loading ==> r.0 == l && r.1.None?
    ensures !l.store.loading ==>
      && r.0.store.loading
      && r.0.pending == l.pending + 1
      && r.0.store.page.page == l.store.page.page + 1
      && r.0.store.page.results == l.store.page.results
      && r.0.store.items == l.store.items && r.0.store.responseInfo == l.store.responseInfo
      && r.1.Some?
      && r.1.value.page == Some(r.0.store.page.page)
      && r.1.value.results == Some(r.0.store.page.results)
      && r.1.value.inc == params.inc
  {
    if l.store.loading then (l, None)
    else
      var page := l.store.page.(page := l.store.page.page + 1);
      var store := l.store.(loading := true, page := page);
      (Loader(store, l.pending + 1), Some(params.(page := Some(page.page), results := Some(page.results))))
  }

  /** How the issued `getUsers` promise settled. */
  datatype Settlement<U> = Fulfilled(data: UsersListResponse<U>) | Rejected

  /** The `.then` and `.finally` callbacks. On success the results are
      appended and the server's info recorded; on either outcome the flag is
      cleared. With no request in flight there is nothing to settle. */
  function Settle<U>(l: Loader<U>, outcome: Settlement<U>): (r: Loader<U>)
    ensures l.pending == 0 ==> r == l
    ensures l.pending > 0 ==> !r.store.loading && r.pending == l.pending - 1 && r.store.page == l.store.page
    ensures l.pending > 0 && outcome.Fulfilled? ==>
      && l.store.items <= r.store.items
      && r.store.items[|l.store.items|..] == outcome.data.results
      && r.store.responseInfo == outcome.data.info
    ensures l.pending > 0 && outcome.Rejected? ==>
      r.store.items == l.store.items && r.store.responseInfo == l.store.responseInfo
  {
    if l.pending == 0 then l
    else
      var store := (match outcome
        case Fulfilled(data) =>
          AddItemsKeepsPrefix(l.store, data.results);
          AddItems(l.store, data.results).(responseInfo := data.info)
        case Rejected => l.store);
      Loader(store.(loading := false), l.pending - 1)
  }

  /** One step of the loader's life: a call of `fetchUsers`, or the
      settlement of the request in flight. */
  datatype Event<U> = Fetch(params: UsersListRequestParams) | Complete(outcome: Settlement<U>)

  function Step<U>(l: Loader<U>, e: Event<U>): (Loader<U>, Option<UsersListRequestParams>)
  {
    match e
    case Fetch(params) => StartFetch(l, params)
    case Complete(outcome) => (Settle(l, outcome), None)
  }

  /** The loader after a sequence of events, and the requests issued on the
      way, in order. */
  function Run<U>(l: Loader<U>, events: seq<Event<U>>): (Loader<U>, seq<UsersListRequestParams>)
    decreases |events|
  {
    if events == [] then (l, [])
    else
      var step := Step(l, events[0]);
      var rest := Run(step.0, events[1..]);
      (rest.0, (if step.1.Some? then [step.1.value] else []) + rest.1)
  }

  /** Each step keeps the loader valid: no second request is issued while
      one is in flight. */
  lemma StepKeepsValid<U>(l: Loader<U>, e: Event<U>)
    requires Valid(l)
    ensures Valid(Step(l, e).0)
    ensures Step(l, e).1.Some? ==> l.pending == 0
  {
  }

  /** Over any run from a valid state: the loader stays valid; the page size
      never changes; the counter advances by one per issued request and by
      nothing else, so it never decreases; the issued requests ask for the
      consecutive pages after the starting one; and the items only grow at
      the end. */
  lemma {:induction false} RunInvariants<U>(l: Loader<U>, events: seq<Event<U>>)
    requires Valid(l)
    ensures var (last, issued) := Run(l, events);
      && Valid(last)
      && last.store.page.results == l.store.page.results
      && last.store.page.page == l.store.page.page + |issued|
      && l.store.items <= last.store.items
      && (forall i :: 0 <= i < |issued| ==>
            issued[i].page == Some(l.store.page.page + i + 1) && issued[i].results == Some(l.store.page.results))
    decreases |events|
  {
    if events != [] {
      var (l1, req) := Step(l, events[0]);
      StepKeepsValid(l, events[0]);
      RunInvariants(l1, events[1..]);
      var (last, rest) := Run(l1, events[1..]);
      var head := if req.Some? then [req.value] else [];
      assert Run(l, events) == (last, head + rest);
      assert l1.store.page.page == l.store.page.page + |head|;
      assert l.store.items <= l1.store.items;
      forall i | 0 <= i < |head + rest|
        ensures (head + rest)[i].page == Some(l.store.page.page + i + 1)
        ensures (head + rest)[i].results == Some(l.store.page.results)
      {
        if i >= |head| {
          assert (head + rest)[i] == rest[i - |head|];
        }
      }
    }
  }

  /** A call while loading issues nothing and leaves the counter alone. */
  lemma FetchWhileLoadingIsNoOp<U>(l: Loader<U>, params: UsersListRequestParams)
    requires l.store.loading
    ensures Run(l, [Fetch(params)]) == (l, [])
  {
    var events: seq<Event<U>> := [Fetch(params)];
    assert events[1..] == [];
    assert Step(l, events[0]) == (l, None);
    assert Run(l, events[1..]) == (l, []);
    assert events != [];
    assert Run(l, events).0 == l;
    assert Run(l, events).1 == [];
  }

  /** Fetch, settle, fetch again: two requests for consecutive pages, and
      the first page's users in the list. */
  lemma FetchSettleFetch<U>(l: Loader<U>, p1: UsersListRequestParams, p2: UsersListRequestParams, data: UsersListResponse<U>)
    requires Valid(l) && !l.store.loading
    ensures var (last, issued) := Run(l, [Fetch(p1), Complete(Fulfilled(data)), Fetch(p2)]);
      && |issued| == 2
      && issued[0].page == Some(l.store.page.page + 1)
      && issued[1].page == Some(l.store.page.page + 2)
      && last.store.items == l.store.items + data.results
      && last.store.loading
  {
    var (a, r1) := StartFetch(l, p1);
    var b := Settle(a, Fulfilled(data));
    assert b.store.items == l.store.items + data.results;
    var (c, r2) := StartFetch(b, p2);
    var e3: seq<Event<U>> := [Fetch(p2)];
    var e2: seq<Event<U>> := [Complete(Fulfilled(data))] + e3;
    var e1: seq<Event<U>> := [Fetch(p1)] + e2;
    assert e3[1..] == [] && e2[1..] == e3 && e1[1..] == e2;
    assert e1 == [Fetch(p1), Complete(Fulfilled(data)), Fetch(p2)];
    assert Run(b, e3).0 == c && Run(b, e3).1 == [r2.value];
    assert Run(a, e2).0 == c && Run(a, e2).1 == [r2.value];
    assert Run(l, e1).0 == c && Run(l, e1).1 == [r1.value, r2.value];
  }

  /** The request a started fetch hands to the user service carries the new
      page number and the page size as query parameters. */
  lemma StartedRequestQuery<U>(l: Loader<U>, params: UsersListRequestParams)
    requires !l.store.loading
    ensures var (next, issued) := StartFetch(l, params);
      && issued.Some?
      && var query := GetUsersConfig(issued.value).params.value;
      && query["page"] == Number(l.store.page.page + 1)
      && query["results"] == Number(l.store.page.results)
  {
  }
}

=== FILE: utilities.dfy ===
/** URL helpers: recognising absolute URLs, joining a base URL with a
    relative path, and resolving a request path against an optional base. */
module Utilities {
  import opened Wrappers

  /** `[a-z]` under the case-insensitive flag: an ASCII letter of either case. */
  predicate IsSchemeStart(c: char)
  {
    'a' <= c <= 'z' || 'A' <= c <= 'Z'
  }

  /** `[a-z\d+\-.]` under the case-insensitive flag. */
  predicate IsSchemeChar(c: char)
  {
    IsSchemeStart(c) || '0' <= c <= '9' || c == '+' || c == '-' || c == '.'
  }

  /** `url` begins with `//`: a network-path reference (section 4.2 of RFC 3986). */
  predicate StartsWithDoubleSlash(url: string)
  {
    |url| >= 2 && url[0] == '/' && url[1] == '/'
  }

  /** `url[..k]` is a scheme name in the sense of section 3.1 of RFC 3986
      (a letter, then letters, digits, `+`, `-` or `.`) and `://` follows it. */
  predicate SchemeThenSlashes(url: string, k: nat)
  {
    && 1 <= k
    && k + 3 <= |url|
    && IsSchemeStart(url[0])
    && (forall i :: 1 <= i < k ==> IsSchemeChar(url[i]))
    && url[k..k + 3] == "://"
  }

  /** Reference reading of the pattern `^([a-z][a-z\d+\-.]*:)?\/\/` with the
      `i` flag: an optional scheme with its colon, then two slashes. */
  ghost predicate AbsolutePattern(url: string)
  {
    StartsWithDoubleSlash(url) || exists k: nat :: SchemeThenSlashes(url, k)
  }

  /** End of the longest run of scheme characters that starts at `i`. */
  function SchemeRun(url: string, i: nat): (j: nat)
    requires i <= |url|
    ensures i <= j <= |url|
    ensures forall m :: i <= m < j ==> IsSchemeChar(url[m])
    ensures j < |url| ==> !IsSchemeChar(url[j])
    decreases |url| - i
  {
    if i < |url| && IsSchemeChar(url[i]) then SchemeRun(url, i + 1) else i
  }

  /** The recogniser: two leading slashes, or a scheme-start letter whose
      maximal run of scheme characters is followed by `://`. */
  predicate IsAbsoluteURL(url: string)
  {
    || StartsWithDoubleSlash(url)
    || (&& |url| > 0
        && IsSchemeStart(url[0])
        && var k := SchemeRun(url, 1);
           k + 3 <= |url| && url[k..k + 3] == "://")
  }

  /** The recogniser accepts exactly the strings the pattern matches. Since
      `:` is not a scheme character, the only candidate scheme is the maximal
      run, which is what the recogniser inspects. */
  lemma IsAbsoluteURLMatchesPattern(url: string)
    ensures IsAbsoluteURL(url) <==> AbsolutePattern(url)
  {
    if |url| > 0 && IsSchemeStart(url[0]) {
      var k := SchemeRun(url, 1);
      if k + 3 <= |url| && url[k..k + 3] == "://" {
        assert SchemeThenSlashes(url, k);
      }
      forall k': nat | SchemeThenSlashes(url, k')
        ensures k' == k
      {
        assert url[k'] == ':';
      }
    }
  }

  /** Every network-path reference is absolute, whatever follows `//`. */
  lemma DoubleSlashIsAbsolute(rest: string)
    ensures IsAbsoluteURL("//" + rest)
  {
  }

  /** `SchemeRun` stops at the first character that is not a scheme character. */
  lemma {:induction false} SchemeRunAt(url: string, i: nat, j: nat)
    requires i <= j <= |url|
    requires forall m :: i <= m < j ==> IsSchemeChar(url[m])
    requires j == |url| || !IsSchemeChar(url[j])
    ensures SchemeRun(url, i) == j
    decreases j - i
  {
    if i < j {
      SchemeRunAt(url, i + 1, j);
    }
  }

  /** Any scheme name followed by `://` makes an absolute URL. */
  lemma SchemeURLIsAbsolute(scheme: string, rest: string)
    requires |scheme| > 0 && IsSchemeStart(scheme[0])
    requires forall i :: 1 <= i < |scheme| ==> IsSchemeChar(scheme[i])
    ensures IsAbsoluteURL(scheme + "://" + rest)
  {
    var url := scheme + "://" + rest;
    assert url[0] == scheme[0];
    SchemeRunAt(url, 1, |scheme|);
    assert url[|scheme|..|scheme| + 3] == "://";
  }

  /** Sample verdict: the users endpoint is absolute. */
  lemma HttpsURLExample()
    ensures IsAbsoluteURL("https://randomuser.me/api")
  {
    var url := "https://randomuser.me/api";
    assert IsSchemeStart(url[0]);
    SchemeRunAt(url, 1, 5);
    assert url[5..8] == "://";
  }

  /** Sample verdicts: an upper-case scheme, and one with `+`, are absolute. */
  lemma SchemeURLExamples()
    ensures IsAbsoluteURL("HTTP://x")
    ensures IsAbsoluteURL("svn+ssh://h")
  {
    SchemeURLIsAbsolute("HTTP", "x");
    assert "HTTP" + "://" + "x" == "HTTP://x";
    SchemeURLIsAbsolute("svn+ssh", "h");
    assert "svn+ssh" + "://" + "h" == "svn+ssh://h";
  }

  /** Sample verdicts: a bare path, a rooted path, a scheme starting with a
      digit, a scheme followed by a single slash and the empty string are
      all relative. */
  lemma RelativeURLExamples()
    ensures !IsAbsoluteURL("users")
    ensures !IsAbsoluteURL("/users")
    ensures !IsAbsoluteURL("1a://x")
    ensures !IsAbsoluteURL("http:/x")
    ensures !IsAbsoluteURL("")
  {
    SchemeRunAt("users", 1, 5);
    var u := "http:/x";
    SchemeRunAt(u, 1, 4);
    assert u[4..7][2] == 'x';
  }

  /** `s.replace(/\/+$/, '')`: `s` without its trailing run of slashes. */
  function StripTrailingSlashes(s: string): (r: string)
    ensures r <= s
    ensures r == [] || r[|r| - 1] != '/'
    ensures forall i :: |r| <= i < |s| ==> s[i] == '/'
    decreases |s|
  {
    if |s| > 0 && s[|s| - 1] == '/' then StripTrailingSlashes(s[..|s| - 1]) else s
  }

  /** `s.replace(/^\/+/, '')`: `s` without its leading run of slashes. */
  function StripLeadingSlashes(s: string): (r: string)
    ensures |r| <= |s| && r == s[|s| - |r|..]
    ensures r == [] || r[0] != '/'
    ensures forall i :: 0 <= i < |s| - |r| ==> s[i] == '/'
    decreases |s|
  {
    if |s| > 0 && s[0] == '/' then StripLeadingSlashes(s[1..]) else s
  }

  /** `m` ends `base` once its trailing slashes are cut, and `n` starts
      `rel` once its leading slashes are cut. */
  predicate SeamAt(base: string, rel: string, m: nat, n: nat)
  {
    && m <= |base|
    && (forall i :: m <= i < |base| ==> base[i] == '/')
    && (m == 0 || base[m - 1] != '/')
    && n <= |rel|
    && (forall i :: 0 <= i < n ==> rel[i] == '/')
    && (n == |rel| || rel[n] != '/')
  }

  /** `combineURLs`: an empty relative part leaves the base as it is;
      otherwise the base without trailing slashes and the relative part
      without leading slashes are joined by one slash. */
  function CombineURLs(base: string, rel: string): (r: string)
    ensures rel == [] ==> r == base
    ensures rel != [] ==> exists m: nat, n: nat :: SeamAt(base, rel, m, n) && r == base[..m] + "/" + rel[n..]
  {
    if rel == [] then base
    else
      var b := StripTrailingSlashes(base);
      var t := StripLeadingSlashes(rel);
      assert SeamAt(base, rel, |b|, |rel| - |t|);
      b + "/" + t
  }

  /** The seam of a base and a relative part is unique. */
  lemma SeamUnique(base: string, rel: string, m: nat, n: nat, m': nat, n': nat)
    requires SeamAt(base, rel, m, n) && SeamAt(base, rel, m', n')
    ensures m == m' && n == n'
  {
  }

  /** Given any seam, the combined URL is the base cut there, one slash, and
      the relative part from there; at the joint a single slash stands. */
  lemma CombineURLsAtSeam(base: string, rel: string, m: nat, n: nat)
    requires rel != []
    requires SeamAt(base, rel, m, n)
    ensures var r := CombineURLs(base, rel);
      && r == base[..m] + "/" + rel[n..]
      && r[m] == '/'
      && (m == 0 || r[m - 1] != '/')
      && (m + 1 == |r| || r[m + 1] != '/')
  {
    var r := CombineURLs(base, rel);
    var m0: nat, n0: nat :| SeamAt(base, rel, m0, n0) && r == base[..m0] + "/" + rel[n0..];
    SeamUnique(base, rel, m, n, m0, n0);
  }

  /** `getUrlPath(requestedURL = '', baseURL?)`: a truthy base is joined with
      a relative path; an absent or empty base, or an absolute path, leaves
      the path as it is. */
  function GetUrlPath(requested: Option<string>, baseURL: Option<string>): (r: string)
    ensures var url := requested.GetOr("");
      && (AbsolutePattern(url) ==> r == url)
      && (baseURL.None? || baseURL == Some("") ==> r == url)
      && (baseURL.Some? && baseURL.value != "" && !AbsolutePattern(url) ==> r == CombineURLs(baseURL.value, url))
  {
    var url := requested.GetOr("");
    IsAbsoluteURLMatchesPattern(url);
    if baseURL.Some? && baseURL.value != "" && !IsAbsoluteURL(url) then CombineURLs(baseURL.value, url)
    else url
  }

  /** With a non-empty base, an omitted path resolves to the base itself. */
  lemma GetUrlPathDefaultsToBase(baseURL: string)
    requires baseURL != ""
    ensures GetUrlPath(None, Some(baseURL)) == baseURL
  {
    assert !AbsolutePattern("");
  }

  /** A relative path under a non-empty base resolves to the base and the path
      joined at their unique seam by exactly one slash. */
  lemma GetUrlPathJoinsRelative(requested: string, baseURL: string, m: nat, n: nat)
    requires baseURL != "" && requested != ""
    requires !IsAbsoluteURL(requested)
    requires SeamAt(baseURL, requested, m, n)
    ensures GetUrlPath(Some(requested), Some(baseURL)) == baseURL[..m] + "/" + requested[n..]
  {
    IsAbsoluteURLMatchesPattern(requested);
    CombineURLsAtSeam(baseURL, requested, m, n);
  }

  /** Worked example: a relative path under an API base. */
  lemma GetUrlPathRelativeExample()
    ensures GetUrlPath(Some("users"), Some("https://api.example.com/v1")) == "https://api.example.com/v1/users"
  {
    var base, path := "https://api.example.com/v1", "users";
    assert !IsAbsoluteURL(path) by {
      SchemeRunAt(path, 1, 5);
    }
    assert base[25] == '1' && path[0] == 'u';
    GetUrlPathJoinsRelative(path, base, 26, 0);
    assert base[..26] + "/" + path[0..] == "https://api.example.com/v1/users";
  }

  /** A rooted path under any base with a trailing slash meets it at one slash. */
  lemma GetUrlPathRootedExample(base: string)
    requires |base| > 0 && base[|base| - 1] == '/'
    ensures GetUrlPath(Some("/users"), Some(base)) == StripTrailingSlashes(base) + "/users"
  {
    var path := "/users";
    assert !IsAbsoluteURL(path) by {
      assert !StartsWithDoubleSlash(path) && !IsSchemeStart(path[0]);
    }
    var b := StripTrailingSlashes(base);
    assert SeamAt(base, path, |b|, 1) by {
      assert path[0] == '/' && path[1] == 'u';
    }
    assert base[..|b|] == b;
    GetUrlPathJoinsRelative(path, base, |b|, 1);
    RejoinSlash(b, path);
  }

  /** Joining at a slash that the second part already starts with. */
  lemma RejoinSlash(b: string, p: string)
    requires |p| > 0 && p[0] == '/'
    ensures b + "/" + p[1..] == b + p
  {
    assert "/" + p[1..] == p;
  }

  /** A network-path reference ignores the base, whatever it is. */
  lemma GetUrlPathNetworkPathExample(baseURL: Option<string>)
    ensures GetUrlPath(Some("//cdn.example.com/img.png"), baseURL) == "//cdn.example.com/img.png"
  {
    assert StartsWithDoubleSlash("//cdn.example.com/img.png");
  }
}

=== FILE: wrappers.dfy ===
/** Wrappers used across the model: an optional value
    (the source's `undefined`-able fields and arguments) and a result that
    is either a value or an error (a settled promise). */
module Wrappers {

  datatype Option<+T> = None | Some(value: T) {

    /** The wrapped value, or `default` when absent (a defaulted parameter). */
    function GetOr(default: T): T
    {
      match this
      case Some(v) => v
      case None => default
    }
  }

  datatype Result<+R, +E> = Success(value: R) | Failure(error: E)
}
